=== FILE: README.md ===
# pcapAnalyzer core, modelled in Dafny

pcapAnalyzer ingests recorded network captures and serves per-address timelines.
This project models the three parts of `main.go` that carry its logic:

- **Ingestion** (`countPackets`, `parsePCAP`). A count pass over the capture sets
  `totalPackets` and resets `progress` to 0. A second pass then extracts one row
  per frame with a network layer: source address, transport-layer name or
  `"Desconhecido"`, and capture time. Each row is inserted inside one transaction
  for the whole file. The pass bumps `processed` and `progress` after every frame,
  and finally forces `progress` to 100 whether or not the commit succeeded.
  Modelled by `Capture`, `Store`, `Progress` and `Ingest.ParsePcap`. The method
  returns the final globals, the table, the processed counter, the rows handed to
  the insert statement, and every value assigned to `progress`.
- **Queries** (`Queries`). The SQL of the handlers is written as pure functions
  over the `events` log:
  - the WHERE filter on `ip` and an optional `protocol`;
  - ORDER BY timestamp;
  - GROUP BY minute with COUNT(*), ordered by minute;
  - SELECT DISTINCT.
- **Handlers** (`Api`). They check that `ip` is non-empty. The timeline view
  defaults to `"summarized"`, and any view other than `"summarized"` or
  `"complete"` is rejected. A successful request gets a tagged reply,
  `Summarized(buckets)` or `Complete(points)`. `GetProgress` models the progress
  read.

Model choices:
- Frames are abstract: `hasNet`, `src`, an optional transport name, and `ts` in
  whole seconds. A minute is `ts / 60`, which is floor division.
- A published progress value, `Progress.Published`, is `Reset | Fraction(processed, total) | Done`. Its percentage is an
  exact real, not a float.
- A readable capture is one fixed frame sequence, read twice.
- The calls that can fail are inputs to `ParsePcap`, collected in `Ingest.Env`:
  - whether reopening the capture, `db.Begin` and `tx.Prepare` succeed;
  - the frame positions whose insert fails;
  - whether the commit succeeds.
- A failed commit leaves the table unchanged.
- Store ids follow AUTO_INCREMENT: the largest id present plus one.
- The store query of each handler either succeeds (`queryOk`) or produces the
  500 reply.
- The source writes ORDER BY timestamp and nothing more. The model breaks ties
  between equal timestamps by id, that is by insertion order.
- The protocol sentinel is the literal `"Desconhecido"`, which is what the code
  stores.
- SELECT DISTINCT leaves the order of its results unspecified. The model
  returns values in order of first occurrence, and its contracts only speak
  of membership and the absence of duplicates.

## Model

| member | source | states |
|---|---|---|
| Capture.CountPackets | main.go:126-138 | an unreadable capture is an error; otherwise the count is the number of frames, with or without a network layer |
| Capture.ExtractedRow | main.go:171-184 | the extractor (`Capture.Extract`) yields a row exactly for a frame with a network layer; the row carries the frame's source address, its transport-layer name or "Desconhecido", and its capture time |
| Capture.AttemptsMatchNetworkFrames | main.go:170-186 | the `stmt.Exec` sequence (`Capture.Attempts`) has exactly one insert attempt per network-layer frame, in frame order; the k-th carries that frame's source, its transport name or "Desconhecido", and its time |
| Capture.NetworkFrames | main.go:171-176 | the frames kept are exactly the frames with a network layer, never more than the capture holds |
| Capture.NetworkFramesAppend | main.go:170 | filtering network frames distributes over concatenation, so the pass can be read frame by frame |
| Capture.KeptWithoutFailures | main.go:186-189 | when no insert fails, the transaction receives every insert attempt |
| Capture.KeptAtMostAttempts | main.go:186-189 | failed inserts only drop rows: the rows reaching the transaction (`Capture.Kept`) are a sub-multiset of the attempts |
| Capture.KeptEveryUnfailed | main.go:186-189 | a failed insert is logged and the loop goes on: the row of every network-layer frame whose insert did not fail still reaches the transaction |
| Store.MaxId | main.go:89 | the AUTO_INCREMENT high-water mark is at least every id in the table |
| Store.InsertFreshId | main.go:89-92 | an insert (`Store.Insert`) leaves earlier rows untouched and stores the row under an id larger than every existing id, so ids stay ascending |
| Store.RowsAppend | main.go:186 | the table only grows at its end: the stored columns of a log followed by more events are the old columns followed by the new ones |
| Store.RowsOfInsert | main.go:186 | one insert adds exactly its row to the stored columns |
| Store.InsertAllAppends | main.go:186 | a batch of inserts (`Store.InsertAll`) appends exactly the given rows, in order |
| Store.InsertAllKeepsPrefix | main.go:186 | a batch of inserts never changes an earlier event |
| Store.InsertAllKeepsIdsAscending | main.go:89 | ids stay strictly increasing in insertion order |
| Progress.Percent | main.go:191 | every published progress is between 0 and 100; it is 100 exactly at the end or after the last frame, and 0 exactly after the reset |
| Progress.FractionBounds | main.go:191 | processed/total*100 lies in (0, 100] and reaches 100 only when processed equals total |
| Progress.FractionMonotone | main.go:190-191 | more processed frames of the same total never give a lower percentage |
| Progress.FractionsNonDecreasing | main.go:146-191 | the reset to 0 followed by k/n*100 for k = 1..n never goes down |
| Progress.ExtendNonDecreasing | main.go:191-198 | the final 100 (or any value no lower than the last) keeps the observed sequence non-decreasing |
| Ingest.ParsePcap | main.go:140-199 | an unreadable capture changes nothing; after a count the total is published and progress reset; failed setup leaves progress at 0 and nothing inserted; otherwise processed equals the frame count, one insert attempt per network frame, the table gains the kept rows only on commit, and progress ends at 100 either way, never decreasing |
| Ingest.ProcessFrames | main.go:169-192 | after the loop processed equals the frame count and the k-th progress value is k of n; the attempts are the extracted rows; the transaction log is the old log plus the rows whose insert succeeded; progress never goes down |
| Ingest.ProcessFrame | main.go:171-191 | one iteration: processed rises by exactly one whatever the frame; no insert attempt without a network layer, otherwise exactly one, kept unless that insert fails; progress becomes the next fraction |
| Queries.Select | main.go:309-313 | the WHERE clause: exactly the events with the given ip and, when given, protocol, each as many times as it is stored |
| Queries.InsertByTime | main.go:310 | placing an event adds exactly that event to the multiset of rows |
| Queries.InsertByTimeSorted | main.go:310 | placing an event into a time-ordered list keeps it ordered |
| Queries.SortByTime | main.go:310-312 | ORDER BY timestamp ASC: the result is ordered and a permutation of its input |
| Queries.InsertByTimeTimes | main.go:310 | placing an event adds exactly its timestamp to the timestamps present |
| Queries.SortByTimeTimes | main.go:310-312 | ORDER BY timestamp keeps every timestamp, each as often as before |
| Queries.AddToBucketOrdered | main.go:215 | counting a row keeps the groups strictly ascending by minute |
| Queries.AddToBucketTotal | main.go:215 | counting a row keeps every count positive and raises the total by one |
| Queries.AddToBucketCounts | main.go:215 | counting a row of minute m raises the count at m by one and changes no other count |
| Queries.AddToBucketMinutes | main.go:215 | counting a row of minute m adds m, and nothing else, to the set of minutes |
| Queries.GroupByMinuteOrdered | main.go:215-219 | GROUP BY minute ORDER BY minute ASC: the groups are strictly ascending by minute |
| Queries.GroupByMinuteTotal | main.go:215-219 | every group counts at least one row, and the counts sum to the number of rows |
| Queries.GroupByMinuteCounts | main.go:215-219 | COUNT(*) per group of `Queries.GroupByMinute` equals the number of rows in that minute; the groups are exactly the minutes present |
| Queries.CountAtOwnBucket | main.go:215 | in an ordered group list, each entry's count is the count recorded for its minute |
| Queries.Events | main.go:309-313 | the events query returns every matching event exactly as often as it is stored, nothing else, ordered by time |
| Queries.EventsAreMatches | main.go:309-313 | the events query returns as many rows as match, each a stored event with that ip and, when given, that protocol |
| Queries.Distinct | main.go:280 | DISTINCT: no duplicates, and exactly the values present |
| Queries.DistinctIps | main.go:280 | the distinct addresses are exactly those present in the table, each once |
| Queries.DistinctProtocols | main.go:264 | the distinct protocols for an address are exactly those stored with it, each once |
| Api.CompletePoints | main.go:249-253 | the complete view has one point per matching event, ascending by time, each with count 1; its timestamps are exactly the matching events' timestamps, each as often as it occurs |
| Api.PointsOfEvents | main.go:221-228 | the points built from the events query are ascending by time, one per match, each at a matching event's time |
| Api.PointsOfTimes | main.go:249-253 | the points built one per scanned row (`Api.PointsOf`) carry exactly the rows' timestamps, in row order |
| Api.PointsOfEventsTimes | main.go:221-228 | the complete-view points carry exactly the matching events' timestamps, each as often as it occurs |
| Api.GetTimelineData | main.go:201-256 | empty ip is a bad request; an absent view means summarized; a view other than summarized/complete is a bad request; a failed query is a server error; otherwise the body's variant follows the view |
| Api.GetProtocols | main.go:258-277 | empty ip is a bad request; otherwise the distinct protocols stored for that address |
| Api.GetDistinctIps | main.go:279-293 | never a bad request; otherwise the distinct addresses in the table |
| Api.GetEvents | main.go:299-335 | empty ip is a bad request; otherwise the matching events ordered by time, each exactly once |
| Api.GetProgress | main.go:295-297 | the polled value is a percentage in [0, 100], 100 exactly at completion |
| Api.ViewDefaultsToSummarized | main.go:208 | an absent view parameter (`Api.ViewParam`) behaves exactly as view=summarized |
| Api.EmptyViewIsRejected | main.go:208 | a view parameter that is present but empty does not fall back to the default; with a non-empty ip the request is rejected as an invalid view |
| Api.SummarizedTimelineSpec | main.go:213-220 | the summarized query (`Queries.SummaryRows`) returns one entry per distinct minute among matching events, strictly ascending, each count at least 1 and equal to that minute's matches, counts summing to the matches |
| Api.CompleteTimelineSpec | main.go:221-228 | the events and complete-view queries return each matching event exactly once, ascending by time; the complete view's timestamps are the matching events' timestamps with their multiplicities, and every count is 1 |
| Api.ViewsAgree | main.go:213-228 | the summarized counts add up to the number of complete-view points and of events |
| Api.UnseenIpIsEmpty | main.go:240-255 | a valid request for an address absent from the table gets an empty 200 reply, not an error |
| Json.EmptyResultsRenderAsNull | main.go:286-292 | as written, an empty table or an unseen address renders the list body as null, for the ips, protocols and events handlers and both timeline views |
| Json.EmptyResultsRenderAsEmptyArray | main.go:286-292 | with the intended encoding those bodies are [], and the ips array is empty exactly when the table is |
| Pipeline.AttemptSources | main.go:177-186 | the insert attempts carry exactly the source addresses of the network-layer frames |
| Pipeline.StoredSources | main.go:186 | the stored events carry exactly the addresses of the inserted rows |
| Pipeline.IngestedOneEventPerNetworkFrame | main.go:170-192 | ingesting into an empty table with no failed insert stores exactly the extracted rows of the network-layer frames, in frame order, one event each, with ascending ids |
| Pipeline.IngestedAddressesAreNetworkSources | main.go:280 | after that ingestion the distinct addresses served are exactly the source addresses of the network-layer frames |

## Left out

- Packet decoding (`pcap.OpenOffline`, `NetworkLayer`, `TransportLayer`) is a foreign library. It is replaced by the abstract `Frame` and a fixed frame sequence.
- The capture is assumed not to change between the two passes. A file rewritten in between could make processed exceed total in the source.
- The goroutine launch in `uploadPCAP` is left out, together with the unsynchronised globals it races on. One job is modelled, and its globals are explicit values.
- Float arithmetic for `progress` is left out. The model's percentage is exact.
- MySQL details are left out:
  - `DATE_FORMAT` applied to a VARCHAR column. The minute bucket is the integer `ts / 60`, not the 'YYYY-MM-DD HH:MM' string.
  - Ordering the VARCHAR timestamp as text rather than as time.
  - Driver `Scan` errors, which the handlers ignore. This includes scanning the VARCHAR `timestamp` column into `time.Time` (main.go:251, 326). The `parseTime=true` connection option (main.go:32) converts only date and time columns, so that scan fails, and the program as written returns every complete-view point and every event with the zero time `0001-01-01T00:00:00Z`. `Api.CompletePoints` and `Api.GetEvents` return the stored times instead.
  - Prepared statements, and transactions beyond begin/prepare/commit success flags.
- The AUTO_INCREMENT ids are modelled without gaps. MySQL may consume ids for failed inserts and rolled-back transactions.
- RFC 3339 (section 5.6) timestamp formatting through `time.Format` is library behaviour. Timestamps are integers in whole seconds.
- Logging through `log.Println` is left out.
- Concrete HTTP status codes and JSON field names are left out. `BadRequest`, `ServerError` and `Ok` stand for 400, 500 and 200.
- Startup and plumbing are left out: `main`, `verifyDatabase`, `createTable`, `uploadPCAP`, `showHomePage`, `timelinePage`, gin routing and HTML templates.
- static/timeline.js is the browser UI and is not part of this model.
- Queries.Matches: strings are compared exactly. The table is created without a collation (main.go:88-93), so the server's default collation applies to `WHERE ip = ?`, `AND protocol = ?` and `SELECT DISTINCT`. That default ignores case in current MySQL releases, and accents too in MySQL 8, so `FE80::1` and `fe80::1`, or `tcp` and `TCP`, are one value there and two in the model. Collations are server configuration, not program logic.
- Queries.Distinct: for the same reason, values that differ only in case are distinct in the model.
- Store.NextId: ids are unbounded. `id INT AUTO_INCREMENT` (main.go:89) stops at 2147483647, and every later insert fails. The model only admits this through the arbitrary set of failed inserts in `Ingest.Env`; it does not tie those failures to the id width.
- Queries.SortByTime: the tie order between equal timestamps is the model's choice, by id. The SQL leaves it unspecified.

## Findings

| source | as written | input that shows it | evidently intended | confidence | as-written member | corrected member |
|---|---|---|---|---|---|---|
| main.go:286-292 | `ips` starts as a nil slice and gains one element per row, so zero rows leave it nil, and the JSON encoder renders a nil slice as `null`. The same holds for the protocols, events and timeline handlers. | an empty `events` table (GET /api/ips), or a valid but unseen `ip` (GET /api/events, /api/protocols, /api/timeline in either view) | an empty array `[]`. The page script reads `data.length` and `data.forEach` on these bodies, and on `null` it throws before scheduling the next `loadIPs` retry. | high; not executed | Json.EmptyResultsRenderAsNull | Json.EmptyResultsRenderAsEmptyArray |

The `Api` handlers model the corrected behaviour: their bodies are sequences, and they render as arrays.

=== FILE: api.dfy ===
/**
  The query handlers of `main.go`: parameter validation, the timeline view
  dispatch, and the shape of each reply. The store query either succeeds on
  the current log or fails (`queryOk`), which the handler reports as a
  server error.
*/
module Api {
  import opened Wrappers
  import opened Store
  import opened Queries
  import opened Progress
  import opened Ingest

  /** An HTTP reply: 400 with a message, 500 with a message, or 200 with a body. */
  datatype Reply<+T> = BadRequest(message: string) | ServerError(message: string) | Ok(body: T)

  /** One complete-view entry: a timestamp and the constant count 1. */
  datatype Point = Point(ts: int, count: nat)

  /** The two timeline bodies, selected by `view`. */
  datatype Timeline = Summarized(buckets: seq<Bucket>) | Complete(points: seq<Point>)

  const IpRequired: string := "Parâmetro 'ip' é obrigatório"
  const InvalidView: string := "View inválida"
  const QueryFailed: string := "Erro na consulta"
  const SummarizedView: string := "summarized"
  const CompleteView: string := "complete"

  /**
    `c.DefaultQuery("view", "summarized")`: the default applies only when the
    parameter is absent; a present but empty `view` stays empty.
  */
  function ViewParam(view: Option<string>): string {
    match view
    case Some(v) => v
    case None => SummarizedView
  }

  predicate KnownView(v: string) {
    v == SummarizedView || v == CompleteView
  }

  /** The timestamp column of a list of points, in order. */
  function PointTimes(ps: seq<Point>): seq<int> {
    if |ps| == 0 then [] else [ps[0].ts] + PointTimes(ps[1..])
  }

  /** One count-1 point per row, at that row's time, in row order. */
  function PointsOf(rows: seq<Event>): seq<Point> {
    seq(|rows|, i requires 0 <= i < |rows| => Point(rows[i].ts, 1))
  }

  /** The points built from rows carry exactly the rows' timestamps, in order. */
  lemma {:induction false} PointsOfTimes(rows: seq<Event>)
    ensures PointTimes(PointsOf(rows)) == Times(rows)
    decreases |rows|
  {
    if |rows| > 0 {
      PointsOfTimes(rows[1..]);
      assert PointsOf(rows)[1..] == PointsOf(rows[1..]);
    }
  }

  /**
    The complete view: one point per matching event, ascending by time, each
    with count 1, and each at the time of a matching event.
  */
  function CompletePoints(log: seq<Event>, ip: string, protocol: string): (r: seq<Point>)
    ensures |r| == |Select(log, ip, protocol)|
    ensures forall i, j :: 0 <= i < j < |r| ==> r[i].ts <= r[j].ts
    ensures forall i :: 0 <= i < |r| ==> r[i].count == 1
    ensures forall i :: 0 <= i < |r| ==> exists e :: e in log && Matches(e, ip, protocol) && e.ts == r[i].ts
    ensures multiset(PointTimes(r)) == multiset(Times(Select(log, ip, protocol)))
  {
    PointsOfEvents(log, ip, protocol);
    PointsOfEventsTimes(log, ip, protocol);
    PointsOf(Events(log, ip, protocol))
  }

  /** The points of the events query: one per match, ascending, each at a matching event's time. */
  lemma PointsOfEvents(log: seq<Event>, ip: string, protocol: string)
    ensures var r := PointsOf(Events(log, ip, protocol));
      && |r| == |Select(log, ip, protocol)|
      && (forall i, j :: 0 <= i < j < |r| ==> r[i].ts <= r[j].ts)
      && (forall i :: 0 <= i < |r| ==> exists e :: e in log && Matches(e, ip, protocol) && e.ts == r[i].ts)
  {
    var rows := Events(log, ip, protocol);
    var r := PointsOf(rows);
    EventsAreMatches(log, ip, protocol);
    forall i, j | 0 <= i < j < |r|
      ensures r[i].ts <= r[j].ts
    {
      assert Before(rows[i], rows[j]);
    }
    forall i | 0 <= i < |r|
      ensures exists e :: e in log && Matches(e, ip, protocol) && e.ts == r[i].ts
    {
      assert rows[i] in log && Matches(rows[i], ip, protocol) && rows[i].ts == r[i].ts;
    }
  }

  /**
    The points of the events query carry exactly the matching events'
    timestamps, each as often as it occurs among the matches.
  */
  lemma PointsOfEventsTimes(log: seq<Event>, ip: string, protocol: string)
    ensures multiset(PointTimes(PointsOf(Events(log, ip, protocol))))
         == multiset(Times(Select(log, ip, protocol)))
  {
    PointsOfTimes(Events(log, ip, protocol));
    SortByTimeTimes(Select(log, ip, protocol));
  }

  /** GET /api/timeline */
  function GetTimelineData(log: seq<Event>, ip: string, protocol: string, view: Option<string>, queryOk: bool)
    : (r: Reply<Timeline>)
    ensures ip == "" ==> r == BadRequest(IpRequired)
    ensures ip != "" && !KnownView(ViewParam(view)) ==> r == BadRequest(InvalidView)
    ensures r.BadRequest? <==> ip == "" || !KnownView(ViewParam(view))
    ensures r.ServerError? <==> ip != "" && KnownView(ViewParam(view)) && !queryOk
    ensures r.Ok? ==> (r.body.Summarized? <==> ViewParam(view) == SummarizedView)
    ensures r.Ok? && r.body.Summarized? ==> r.body.buckets == SummaryRows(log, ip, protocol)
    ensures r.Ok? && r.body.Complete? ==> r.body.points == CompletePoints(log, ip, protocol)
  {
    if ip == "" then BadRequest(IpRequired)
    else
      var v := ViewParam(view);
      if v == SummarizedView then
        if queryOk then Ok(Summarized(SummaryRows(log, ip, protocol))) else ServerError(QueryFailed)
      else if v == CompleteView then
        if queryOk then Ok(Complete(CompletePoints(log, ip, protocol))) else ServerError(QueryFailed)
      else BadRequest(InvalidView)
  }

  /** GET /api/protocols */
  function GetProtocols(log: seq<Event>, ip: string, queryOk: bool): (r: Reply<seq<string>>)
    ensures r.BadRequest? <==> ip == ""
    ensures r.ServerError? <==> ip != "" && !queryOk
    ensures r.Ok? ==> NoDuplicates(r.body)
    ensures r.Ok? ==> forall p :: p in r.body <==> exists e :: e in log && e.ip == ip && e.protocol == p
  {
    if ip == "" then BadRequest(IpRequired)
    else if !queryOk then ServerError(QueryFailed)
    else Ok(DistinctProtocols(log, ip))
  }

  /** GET /api/ips: no parameter to validate. */
  function GetDistinctIps(log: seq<Event>, queryOk: bool): (r: Reply<seq<string>>)
    ensures !r.BadRequest?
    ensures r.ServerError? <==> !queryOk
    ensures r.Ok? ==> NoDuplicates(r.body)
    ensures r.Ok? ==> forall ip :: ip in r.body <==> exists e :: e in log && e.ip == ip
  {
    if !queryOk then ServerError(QueryFailed) else Ok(DistinctIps(log))
  }

  /** GET /api/events */
  function GetEvents(log: seq<Event>, ip: string, protocol: string, queryOk: bool): (r: Reply<seq<Event>>)
    ensures r.BadRequest? <==> ip == ""
    ensures r.ServerError? <==> ip != "" && !queryOk
    ensures r.Ok? ==> SortedByTime(r.body)
    ensures r.Ok? ==> multiset(r.body) == multiset(Select(log, ip, protocol))
  {
    if ip == "" then BadRequest(IpRequired)
    else if !queryOk then ServerError(QueryFailed)
    else Ok(Events(log, ip, protocol))
  }

  /** GET /api/progress: the percentage the job last published. */
  function GetProgress(t: Tracker): (r: real)
    requires Valid(t.progress)
    ensures 0.0 <= r <= 100.0
    ensures r == 100.0 <==> t.progress.Done? || (t.progress.Fraction? && t.progress.processed == t.progress.total)
  {
    Percent(t.progress)
  }

  // ---------------------------------------------------------------------------
  // Properties of the replies
  // ---------------------------------------------------------------------------

  /** An absent `view` is the summarized view. */
  lemma ViewDefaultsToSummarized(log: seq<Event>, ip: string, protocol: string, queryOk: bool)
    ensures GetTimelineData(log, ip, protocol, None, queryOk)
         == GetTimelineData(log, ip, protocol, Some(SummarizedView), queryOk)
  {
  }

  /**
    A `view` parameter that is present but empty does not fall back to the
    default: the request is rejected as an unknown view.
  */
  lemma EmptyViewIsRejected(log: seq<Event>, ip: string, protocol: string, queryOk: bool)
    ensures ViewParam(Some("")) == ""
    ensures GetTimelineData(log, ip, protocol, Some(""), queryOk)
         == if ip == "" then BadRequest(IpRequired) else BadRequest(InvalidView)
  {
  }

  /**
    The summarized view: one entry per distinct minute among the matching
    events, strictly ascending, each count at least 1 and equal to the number
    of matching events in that minute, the counts summing to the matches.
  */
  lemma SummarizedTimelineSpec(log: seq<Event>, ip: string, protocol: string)
    ensures var r := SummaryRows(log, ip, protocol);
      && StrictlyAscending(r)
      && AllPositive(r)
      && Total(r) == |Select(log, ip, protocol)|
      && Minutes(r) == (set e | e in log && Matches(e, ip, protocol) :: Minute(e.ts))
      && forall i :: 0 <= i < |r| ==> r[i].count == RowsInMinute(Select(log, ip, protocol), r[i].minute)
  {
    var rows := Select(log, ip, protocol);
    var r := GroupByMinute(rows);
    GroupByMinuteOrdered(rows);
    GroupByMinuteTotal(rows);
    GroupByMinuteCounts(rows);
    forall i | 0 <= i < |r|
      ensures r[i].count == RowsInMinute(rows, r[i].minute)
    {
      CountAtOwnBucket(r, i);
    }
    assert (set e | e in log && Matches(e, ip, protocol) :: Minute(e.ts)) == (set e | e in rows :: Minute(e.ts));
  }

  /**
    The events query and the complete view return each matching event exactly
    once, ascending by timestamp (ties by id): the complete view's timestamps
    are the matching events' timestamps, each as often as it occurs, and every
    count is 1.
  */
  lemma CompleteTimelineSpec(log: seq<Event>, ip: string, protocol: string)
    ensures var rows := Events(log, ip, protocol);
      && multiset(rows) == multiset(Select(log, ip, protocol))
      && (forall e :: e in rows <==> e in log && Matches(e, ip, protocol))
      && SortedByTime(rows)
    ensures var pts := CompletePoints(log, ip, protocol);
      && |pts| == |Select(log, ip, protocol)|
      && (forall i, j :: 0 <= i < j < |pts| ==> pts[i].ts <= pts[j].ts)
      && (forall i :: 0 <= i < |pts| ==> pts[i].count == 1)
      && multiset(PointTimes(pts)) == multiset(Times(Select(log, ip, protocol)))
  {
    var rows := Events(log, ip, protocol);
    var sel := Select(log, ip, protocol);
    assert |rows| == |multiset(rows)| == |multiset(sel)| == |sel|;
    assert forall e :: e in rows <==> e in multiset(rows);
    assert forall e :: e in sel <==> e in multiset(sel);
  }

  /** Both timeline views and the events query count the same matching events. */
  lemma ViewsAgree(log: seq<Event>, ip: string, protocol: string)
    ensures Total(SummaryRows(log, ip, protocol)) == |CompletePoints(log, ip, protocol)|
    ensures |CompletePoints(log, ip, protocol)| == |Events(log, ip, protocol)|
  {
    SummarizedTimelineSpec(log, ip, protocol);
    CompleteTimelineSpec(log, ip, protocol);
  }

  /** A well-formed request for an address absent from the log gets an empty 200, not an error. */
  lemma UnseenIpIsEmpty(log: seq<Event>, ip: string, protocol: string)
    requires ip != ""
    requires forall e :: e in log ==> e.ip != ip
    ensures GetTimelineData(log, ip, protocol, Some(SummarizedView), true) == Ok(Summarized([]))
    ensures GetTimelineData(log, ip, protocol, Some(CompleteView), true) == Ok(Complete([]))
    ensures GetEvents(log, ip, protocol, true) == Ok([])
    ensures GetProtocols(log, ip, true) == Ok([])
  {
  }
}

=== FILE: capture.dfy ===
/**
  The capture decoder and the event extractor of `main.go`.

  The packet library is replaced by an abstract `Frame`: whether it carries a
  network layer, the network source address, the optional transport-layer name
  and the capture time in whole seconds (the RFC 3339 form the source stores
  drops sub-second digits). A readable capture file is one fixed sequence of
  frames; opening it twice yields the same sequence.
*/
module Capture {
  import opened Wrappers

  datatype Frame = Frame(hasNet: bool, src: string, transport: Option<string>, ts: int)

  /** A capture file as `pcap.OpenOffline` sees it. */
  datatype File = Unreadable | Readable(frames: seq<Frame>)

  /** The three columns one `INSERT INTO events` receives. */
  datatype Row = Row(ip: string, protocol: string, ts: int)

  /** Protocol name stored when a frame has no transport layer. */
  const UnknownProtocol: string := "Desconhecido"

  /** Message logged when the capture cannot be opened. */
  const OpenError: string := "pcap: cannot open capture"

  /** The protocol column for a frame: its transport-layer name, or the sentinel. */
  function ProtocolOf(f: Frame): string {
    match f.transport
    case Some(name) => name
    case None => UnknownProtocol
  }

  /** Frame-to-event extraction: no row for a frame without a network layer. */
  function Extract(f: Frame): Option<Row> {
    if f.hasNet then Some(Row(f.src, ProtocolOf(f), f.ts)) else None
  }

  /**
    The extractor yields a row exactly for a frame with a network layer; the
    row carries the source address, the transport-layer name or the
    sentinel, and the capture time, and the frame contributes it once.
  */
  lemma ExtractedRow(f: Frame)
    ensures Extract(f).Some? <==> f.hasNet
    ensures f.hasNet ==> Extract(f).value.ip == f.src && Extract(f).value.ts == f.ts
    ensures f.hasNet && f.transport.Some? ==> Extract(f).value.protocol == f.transport.value
    ensures f.hasNet && f.transport.None? ==> Extract(f).value.protocol == UnknownProtocol
    ensures |Emitted(f)| == if f.hasNet then 1 else 0
  {
  }

  /** The rows one frame contributes, as a sequence of length 0 or 1. */
  function Emitted(f: Frame): seq<Row> {
    match Extract(f)
    case Some(row) => [row]
    case None => []
  }

  /**
    The insert attempts the second pass makes over `frames`, in frame order.
    Defined on the last frame so that it follows the loop one frame at a time.
  */
  function Attempts(frames: seq<Frame>): seq<Row>
    decreases |frames|
  {
    if |frames| == 0 then []
    else Attempts(frames[..|frames| - 1]) + Emitted(frames[|frames| - 1])
  }

  /**
    The rows that reach the open transaction: the attempts, minus those whose
    frame position is in `failed` (an insert that returned an error).
  */
  function Kept(frames: seq<Frame>, failed: set<nat>): seq<Row>
    decreases |frames|
  {
    if |frames| == 0 then []
    else
      var i := |frames| - 1;
      Kept(frames[..i], failed) + (if i in failed then [] else Emitted(frames[i]))
  }

  /** Reference definition: the frames that carry a network layer, in order. */
  function NetworkFrames(frames: seq<Frame>): (r: seq<Frame>)
    ensures |r| <= |frames|
    ensures forall f :: f in r <==> f in frames && f.hasNet
  {
    if |frames| == 0 then []
    else if frames[0].hasNet then [frames[0]] + NetworkFrames(frames[1..])
    else NetworkFrames(frames[1..])
  }

  lemma {:induction false} NetworkFramesAppend(a: seq<Frame>, b: seq<Frame>)
    ensures NetworkFrames(a + b) == NetworkFrames(a) + NetworkFrames(b)
    decreases |a|
  {
    if |a| == 0 {
      assert a + b == b;
    } else {
      assert (a + b)[1..] == a[1..] + b;
      NetworkFramesAppend(a[1..], b);
    }
  }

  /**
    Exactly one insert attempt per frame with a network layer, in frame order;
    the k-th attempt carries the k-th such frame's source address, its
    transport-layer name or "Desconhecido", and its capture time.
  */
  lemma {:induction false} AttemptsMatchNetworkFrames(frames: seq<Frame>)
    ensures |Attempts(frames)| == |NetworkFrames(frames)|
    ensures forall k :: 0 <= k < |Attempts(frames)| ==>
      var f := NetworkFrames(frames)[k];
      && Attempts(frames)[k].ip == f.src
      && Attempts(frames)[k].ts == f.ts
      && (f.transport.Some? ==> Attempts(frames)[k].protocol == f.transport.value)
      && (f.transport.None? ==> Attempts(frames)[k].protocol == UnknownProtocol)
    decreases |frames|
  {
    if |frames| > 0 {
      var n := |frames| - 1;
      AttemptsMatchNetworkFrames(frames[..n]);
      assert frames == frames[..n] + [frames[n]];
      NetworkFramesAppend(frames[..n], [frames[n]]);
      assert NetworkFrames([frames[n]]) == (if frames[n].hasNet then [frames[n]] else []) by {
        assert [frames[n]][1..] == [];
      }
    }
  }

  /** With no failed insert, the transaction receives every attempt. */
  lemma {:induction false} KeptWithoutFailures(frames: seq<Frame>)
    ensures Kept(frames, {}) == Attempts(frames)
    decreases |frames|
  {
    if |frames| > 0 {
      KeptWithoutFailures(frames[..|frames| - 1]);
    }
  }

  /**
    Failed inserts only remove rows: the kept rows are a sub-multiset of the
    attempts, so they never outnumber them and repeat none more often.
  */
  lemma {:induction false} KeptAtMostAttempts(frames: seq<Frame>, failed: set<nat>)
    ensures multiset(Kept(frames, failed)) <= multiset(Attempts(frames))
    ensures |Kept(frames, failed)| <= |Attempts(frames)|
    ensures forall row :: row in Kept(frames, failed) ==> row in Attempts(frames)
    decreases |frames|
  {
    if |frames| > 0 {
      KeptAtMostAttempts(frames[..|frames| - 1], failed);
    }
  }

  /**
    A failed insert is logged and the loop goes on: the row of every frame
    with a network layer whose insert did not fail still reaches the
    transaction.
  */
  lemma {:induction false} KeptEveryUnfailed(frames: seq<Frame>, failed: set<nat>)
    ensures forall k :: 0 <= k < |frames| && k !in failed && frames[k].hasNet ==>
                          Extract(frames[k]).value in Kept(frames, failed)
    decreases |frames|
  {
    if |frames| > 0 {
      var n := |frames| - 1;
      KeptEveryUnfailed(frames[..n], failed);
      forall k | 0 <= k < n && k !in failed && frames[k].hasNet
        ensures Extract(frames[k]).value in Kept(frames, failed)
      {
        assert frames[..n][k] == frames[k];
      }
    }
  }

  /**
    The count pass: opens the capture and counts every frame, with or without
    a network layer. An unreadable capture is an error and counts nothing.
  */
  method CountPackets(file: File) returns (r: Result<nat>)
    ensures file.Unreadable? <==> r.Failure?
    ensures file.Readable? ==> r.Success? && r.value == |file.frames|
  {
    match file
    case Unreadable =>
      return Failure(OpenError);
    case Readable(frames) =>
      var count := 0;
      var rest := frames;
      while rest != []
        invariant count + |rest| == |frames|
        decreases |rest|
      {
        count := count + 1;
        rest := rest[1..];
      }
      return Success(count);
  }
}

=== FILE: ingest.dfy ===
/**
  The ingestion job `parsePCAP` of `main.go` for one capture file: a count
  pass, a reset of the progress globals, then a second pass that extracts one
  row per network-layer frame, inserts it in a transaction scoped to the
  whole file, and advances `progress` after every frame.
*/
module Ingest {
  import opened Capture
  import opened Store
  import opened Progress

  /** The process-wide globals `progress` and `totalPackets`, for one job. */
  datatype Tracker = Tracker(progress: Published, totalPackets: nat)

  /**
    The outcomes of the calls whose failure the job handles: reopening the
    capture, `db.Begin`, `tx.Prepare`, the frame positions whose insert
    fails, and `tx.Commit`.
  */
  datatype Env = Env(reopenOk: bool, beginOk: bool, prepareOk: bool, failedInserts: set<nat>, commitOk: bool)

  /** The second pass is reached: every setup step after the count succeeded. */
  predicate LoopRuns(file: File, env: Env) {
    file.Readable? && env.reopenOk && env.beginOk && env.prepareOk
  }

  /**
    One ingestion job. Starting from the globals `t` and the table `store`, it
    returns the globals and the table afterwards, the `processed` counter, the
    rows handed to `stmt.Exec` in order, and every value assigned to
    `progress`, in order, as a poller could observe them.
  */
  method ParsePcap(file: File, env: Env, t: Tracker, store: seq<Event>)
    returns (t': Tracker, store': seq<Event>, processed: nat, attempts: seq<Row>, observed: seq<Published>)
    // A capture that cannot be opened leaves the globals and the table untouched.
    ensures file.Unreadable? ==>
      t' == t && store' == store && processed == 0 && attempts == [] && observed == []
    // After a successful count the total is published and progress reset to 0.
    ensures file.Readable? ==>
      t'.totalPackets == |file.frames| && |observed| >= 1 && observed[0] == Reset
    ensures file.Readable? ==> t'.progress == observed[|observed| - 1]
    // A failed reopen, begin or prepare stops the job with progress still 0.
    ensures file.Readable? && !LoopRuns(file, env) ==>
      observed == [Reset] && processed == 0 && attempts == [] && store' == store
    // The second pass: one step per frame, one insert attempt per network frame.
    ensures LoopRuns(file, env) ==>
      && processed == |file.frames|
      && attempts == Attempts(file.frames)
      && |observed| == |file.frames| + 2
      && (forall k :: 1 <= k <= |file.frames| ==> observed[k] == Fraction(k, |file.frames|))
      && observed[|observed| - 1] == Done
    // The table gains the rows whose insert succeeded, only if the commit does.
    ensures LoopRuns(file, env) && env.commitOk ==>
      store' == InsertAll(store, Kept(file.frames, env.failedInserts))
    ensures !(LoopRuns(file, env) && env.commitOk) ==> store' == store
    // Every value a poller can observe is a percentage, and they never go down.
    ensures AllValid(observed) && NonDecreasing(observed)
    ensures Valid(t.progress) ==> Valid(t'.progress)
  {
    var counted := CountPackets(file);
    if counted.Failure? {
      return t, store, 0, [], [];
    }
    var frames := file.frames;
    var total := counted.value;
    t' := Tracker(Reset, total);
    observed := [Reset];
    processed := 0;
    attempts := [];
    store' := store;
    if !env.reopenOk || !env.beginOk || !env.prepareOk {
      return;
    }

    var tx, steps;
    processed, attempts, tx, steps := ProcessFrames(frames, env.failedInserts, store);
    if env.commitOk {
      store' := tx;
    }
    observed := observed + steps + [Done];
    ExtendNonDecreasing([Reset] + steps, Done);
    t' := t'.(progress := Done);
  }

  /**
    The state of the second pass: the `processed` counter, the rows handed to
    `stmt.Exec`, the transaction's view of the table, and the successive
    values assigned to `progress`.
  */
  datatype Pass = Pass(processed: nat, attempts: seq<Row>, tx: seq<Event>, steps: seq<Published>)

  /** What the pass has done after the first `i` frames of `frames`. */
  predicate Processed(frames: seq<Frame>, failed: set<nat>, tx0: seq<Event>, i: nat, p: Pass) {
    && i <= |frames|
    && p.processed == i
    && p.attempts == Attempts(frames[..i])
    && p.tx == InsertAll(tx0, Kept(frames[..i], failed))
    && |p.steps| == i
    && forall k :: 0 <= k < i ==> p.steps[k] == Fraction(k + 1, |frames|)
  }

  /**
    The second pass over `frames` inside a transaction whose view of the
    table starts as `tx0`.
  */
  method ProcessFrames(frames: seq<Frame>, failed: set<nat>, tx0: seq<Event>)
    returns (processed: nat, attempts: seq<Row>, tx: seq<Event>, steps: seq<Published>)
    ensures processed == |frames|
    ensures attempts == Attempts(frames)
    ensures tx == InsertAll(tx0, Kept(frames, failed))
    ensures |steps| == |frames|
    ensures forall k :: 0 <= k < |frames| ==> steps[k] == Fraction(k + 1, |frames|)
    ensures AllValid([Reset] + steps) && NonDecreasing([Reset] + steps)
  {
    var pass := Pass(0, [], tx0, []);
    var i := 0;
    while i < |frames|
      invariant Processed(frames, failed, tx0, i, pass)
    {
      pass := ProcessFrame(frames, failed, tx0, i, pass);
      i := i + 1;
    }
    assert frames[..i] == frames;
    FractionsNonDecreasing(pass.steps, |frames|);
    return pass.processed, pass.attempts, pass.tx, pass.steps;
  }

  /**
    The loop body for frame `i`: extract, attempt the insert unless there is
    no network layer, then advance `processed` and `progress` by one frame.
  */
  method ProcessFrame(frames: seq<Frame>, failed: set<nat>, tx0: seq<Event>, i: nat, p: Pass)
    returns (q: Pass)
    requires i < |frames| && Processed(frames, failed, tx0, i, p)
    ensures Processed(frames, failed, tx0, i + 1, q)
    ensures q.processed == p.processed + 1
    ensures |q.attempts| == |p.attempts| + (if frames[i].hasNet then 1 else 0)
  {
    assert frames[..i + 1][..i] == frames[..i];
    ghost var kept := Kept(frames[..i], failed);
    assert Attempts(frames[..i + 1]) == p.attempts + Emitted(frames[i]);
    assert Kept(frames[..i + 1], failed) == kept + (if i in failed then [] else Emitted(frames[i]));
    var attempts, tx := p.attempts, p.tx;
    match Extract(frames[i]) {
      case None =>
      case Some(row) =>
        attempts := attempts + [row];
        if i !in failed {
          assert (kept + [row])[..|kept|] == kept;
          assert InsertAll(tx0, kept + [row]) == Insert(InsertAll(tx0, kept), row);
          tx := Insert(tx, row);
        }
    }
    assert kept + [] == kept;
    var processed := p.processed + 1;
    q := Pass(processed, attempts, tx, p.steps + [Fraction(processed, |frames|)]);
  }
}

=== FILE: json.dfy ===
/**
  How the list handlers of `main.go` render their rows. Each handler starts
  from a nil slice and appends one element per result row; Go's JSON encoder
  renders a nil slice as `null`, so a query with no rows answers `null`
  rather than `[]`, and the page script's `data.length` / `data.forEach`
  then fail on it.
*/
module Json {
  import opened Store
  import opened Queries
  import opened Api

  /** A JSON list body: `null`, or an array of items. */
  datatype JsonList<T> = Null | Array(items: seq<T>)

  /** The encoding as written: zero appended rows leave the slice nil. */
  function EncodeRowsAsWritten<T>(rows: seq<T>): JsonList<T> {
    if |rows| == 0 then Null else Array(rows)
  }

  /** The intended encoding: always an array, empty when there are no rows. */
  function EncodeRows<T>(rows: seq<T>): JsonList<T> {
    Array(rows)
  }

  /**
    As written, an empty table makes GET /api/ips answer `null`, and a valid
    but unseen address makes GET /api/events, GET /api/protocols and both
    views of GET /api/timeline answer `null` too.
  */
  lemma EmptyResultsRenderAsNull(log: seq<Event>, ip: string, protocol: string)
    requires ip != ""
    requires forall e :: e in log ==> e.ip != ip
    ensures EncodeRowsAsWritten(DistinctIps([])) == Null
    ensures EncodeRowsAsWritten(Events(log, ip, protocol)) == Null
    ensures EncodeRowsAsWritten(DistinctProtocols(log, ip)) == Null
    ensures EncodeRowsAsWritten(SummaryRows(log, ip, protocol)) == Null
    ensures EncodeRowsAsWritten(CompletePoints(log, ip, protocol)) == Null
  {
    assert Select(log, ip, protocol) == [];
  }

  /**
    With the intended encoding every list reply is an array: the same
    requests answer `[]`, and the ips array is empty exactly when the table is.
  */
  lemma EmptyResultsRenderAsEmptyArray(log: seq<Event>, ip: string, protocol: string)
    requires ip != ""
    requires forall e :: e in log ==> e.ip != ip
    ensures EncodeRows(Events(log, ip, protocol)) == Array([])
    ensures EncodeRows(DistinctProtocols(log, ip)) == Array([])
    ensures EncodeRows(SummaryRows(log, ip, protocol)) == Array([])
    ensures EncodeRows(CompletePoints(log, ip, protocol)) == Array([])
    ensures EncodeRows(DistinctIps(log)) == Array([]) <==> |log| == 0
  {
    assert Select(log, ip, protocol) == [];
  }
}

=== FILE: pipeline.dfy ===
/**
  Properties that connect the ingestion job to the queries served over the
  table it fills.
*/
module Pipeline {
  import opened Capture
  import opened Store
  import opened Queries

  /** The insert attempts carry exactly the network sources of the capture. */
  lemma AttemptSources(frames: seq<Frame>, ip: string)
    ensures (exists r :: r in Attempts(frames) && r.ip == ip)
        <==> (exists f :: f in frames && f.hasNet && f.src == ip)
  {
    AttemptsMatchNetworkFrames(frames);
    var rows := Attempts(frames);
    var net := NetworkFrames(frames);
    if exists r :: r in rows && r.ip == ip {
      var r :| r in rows && r.ip == ip;
      var k :| 0 <= k < |rows| && rows[k] == r;
      assert net[k].src == ip && net[k] in net;
    }
    if exists f :: f in frames && f.hasNet && f.src == ip {
      var f :| f in frames && f.hasNet && f.src == ip;
      assert f in net;
      var k :| 0 <= k < |net| && net[k] == f;
      assert rows[k].ip == ip && rows[k] in rows;
    }
  }

  /** A log whose stored columns are `rows` carries exactly the addresses of `rows`. */
  lemma StoredSources(log: seq<Event>, rows: seq<Row>, ip: string)
    requires Rows(log) == rows
    ensures (exists e :: e in log && e.ip == ip) <==> (exists r :: r in rows && r.ip == ip)
  {
    assert |rows| == |log|;
    assert forall i :: 0 <= i < |log| ==> rows[i] == RowOf(log[i]);
    if exists e :: e in log && e.ip == ip {
      var e :| e in log && e.ip == ip;
      var i :| 0 <= i < |log| && log[i] == e;
      assert rows[i] in rows && rows[i].ip == ip;
    }
    if exists r :: r in rows && r.ip == ip {
      var r :| r in rows && r.ip == ip;
      var i :| 0 <= i < |rows| && rows[i] == r;
      assert log[i] in log && log[i].ip == ip;
    }
  }

  /**
    Ingesting a capture into an empty table with no failed insert stores
    exactly one event per network-layer frame: the stored columns are the
    extracted rows, in frame order, under ascending ids.
  */
  lemma IngestedOneEventPerNetworkFrame(frames: seq<Frame>)
    ensures Rows(InsertAll([], Kept(frames, {}))) == Attempts(frames)
    ensures |InsertAll([], Kept(frames, {}))| == |NetworkFrames(frames)|
    ensures IdsAscending(InsertAll([], Kept(frames, {})))
  {
    var rows := Attempts(frames);
    var log := InsertAll([], rows);
    assert Kept(frames, {}) == rows by { KeptWithoutFailures(frames); }
    assert Rows(log) == rows && |log| == |rows| by {
      InsertAllAppends([], rows);
      assert Rows([]) == [];
    }
    assert IdsAscending(log) by { InsertAllKeepsIdsAscending([], rows); }
    assert |rows| == |NetworkFrames(frames)| by { AttemptsMatchNetworkFrames(frames); }
  }

  /**
    After that ingestion, the distinct addresses served are exactly the
    source addresses of the capture's network-layer frames.
  */
  lemma IngestedAddressesAreNetworkSources(frames: seq<Frame>, ip: string)
    ensures ip in DistinctIps(InsertAll([], Kept(frames, {})))
        <==> exists f :: f in frames && f.hasNet && f.src == ip
  {
    KeptWithoutFailures(frames);
    var rows := Attempts(frames);
    var log := InsertAll([], rows);
    InsertAllAppends([], rows);
    assert Rows(log) == rows;
    StoredSources(log, rows, ip);
    AttemptSources(frames, ip);
  }
}

=== FILE: progress.dfy ===
/**
  The global `progress` value of `main.go`, kept exact. `Reset` is the value 0
  (the initial value and the reset after a successful count), `Fraction(k, n)`
  is the value assigned after the k-th frame of n, and `Done` is the final 100.
*/
module Progress {

  /** One value the ingestion job assigns to `progress`. */
  datatype Published = Reset | Fraction(processed: nat, total: nat) | Done

  /** A `Fraction` is only ever assigned with 0 < processed <= total. */
  predicate Valid(p: Published) {
    p.Fraction? ==> 0 < p.processed <= p.total
  }

  /** The percentage a poller reads. */
  function Percent(p: Published): (r: real)
    requires Valid(p)
    ensures 0.0 <= r <= 100.0
    ensures r == 100.0 <==> p.Done? || (p.Fraction? && p.processed == p.total)
    ensures r == 0.0 <==> p.Reset?
  {
    match p
    case Reset => 0.0
    case Done => 100.0
    case Fraction(k, n) =>
      FractionBounds(k, n);
      (k as real / n as real) * 100.0
  }

  lemma FractionBounds(k: nat, n: nat)
    requires 0 < k <= n
    ensures 0.0 < (k as real / n as real) * 100.0 <= 100.0
    ensures (k as real / n as real) * 100.0 == 100.0 <==> k == n
  {
  }

  predicate AllValid(ps: seq<Published>) {
    forall i :: 0 <= i < |ps| ==> Valid(ps[i])
  }

  /** A sequence of observed values never goes down. */
  predicate NonDecreasing(ps: seq<Published>)
    requires AllValid(ps)
  {
    forall i, j :: 0 <= i < j < |ps| ==> Percent(ps[i]) <= Percent(ps[j])
  }

  /** More processed frames of the same total never give a lower percentage. */
  lemma FractionMonotone(k1: nat, k2: nat, n: nat)
    requires 0 < k1 <= k2 <= n
    ensures Percent(Fraction(k1, n)) <= Percent(Fraction(k2, n))
  {
    assert k1 as real / n as real <= k2 as real / n as real;
  }

  /**
    The values a job assigns to `progress`: the reset to 0, then k/n*100
    after the k-th of n frames. They never go down.
  */
  lemma FractionsNonDecreasing(steps: seq<Published>, n: nat)
    requires |steps| == n
    requires forall k :: 0 <= k < n ==> steps[k] == Fraction(k + 1, n)
    ensures AllValid([Reset] + steps) && NonDecreasing([Reset] + steps)
  {
    var ps := [Reset] + steps;
    forall i, j | 0 <= i < j < |ps|
      ensures Percent(ps[i]) <= Percent(ps[j])
    {
      if i > 0 {
        FractionMonotone(i, j, n);
      }
    }
  }

  /** Appending a value no lower than the last one keeps a sequence non-decreasing. */
  lemma ExtendNonDecreasing(ps: seq<Published>, p: Published)
    requires AllValid(ps) && NonDecreasing(ps) && |ps| > 0
    requires Valid(p) && Percent(ps[|ps| - 1]) <= Percent(p)
    ensures AllValid(ps + [p]) && NonDecreasing(ps + [p])
  {
  }
}

=== FILE: queries.dfy ===
/**
  The SQL the query handlers of `main.go` send, stated as functions over the
  `events` log: the WHERE filter on ip and optional protocol, ORDER BY
  timestamp, GROUP BY minute with COUNT(*), and SELECT DISTINCT.
*/
module Queries {
  import opened Store

  // ---------------------------------------------------------------------------
  // WHERE ip = ? [AND protocol = ?]
  // ---------------------------------------------------------------------------

  /** The WHERE clause; an empty protocol parameter means no protocol filter. */
  predicate Matches(e: Event, ip: string, protocol: string) {
    e.ip == ip && (protocol == "" || e.protocol == protocol)
  }

  /** The matching events, in log order, each as often as it occurs in the log. */
  function Select(log: seq<Event>, ip: string, protocol: string): (r: seq<Event>)
    ensures |r| <= |log|
    ensures forall e :: e in r <==> e in log && Matches(e, ip, protocol)
    ensures forall i :: 0 <= i < |r| ==> Matches(r[i], ip, protocol)
    ensures forall x :: multiset(r)[x] == if Matches(x, ip, protocol) then multiset(log)[x] else 0
  {
    if |log| == 0 then []
    else
      assert log == [log[0]] + log[1..];
      if Matches(log[0], ip, protocol) then [log[0]] + Select(log[1..], ip, protocol)
      else Select(log[1..], ip, protocol)
  }

  // ---------------------------------------------------------------------------
  // ORDER BY timestamp ASC
  // ---------------------------------------------------------------------------

  /**
    The row order: by timestamp, and by id between equal timestamps. The SQL
    only orders by timestamp; the id tie-break is the model's choice.
  */
  predicate Before(a: Event, b: Event) {
    a.ts < b.ts || (a.ts == b.ts && a.id <= b.id)
  }

  predicate SortedByTime(s: seq<Event>) {
    forall i, j :: 0 <= i < j < |s| ==> Before(s[i], s[j])
  }

  /** Places `e` after every element that comes before it. */
  function InsertByTime(s: seq<Event>, e: Event): (r: seq<Event>)
    ensures multiset(r) == multiset(s) + multiset{e}
    ensures |r| == |s| + 1
  {
    if |s| == 0 then [e]
    else if Before(e, s[0]) then [e] + s
    else
      assert s == [s[0]] + s[1..];
      [s[0]] + InsertByTime(s[1..], e)
  }

  /** Inserting into a time-ordered sequence keeps it ordered. */
  lemma {:induction false} InsertByTimeSorted(s: seq<Event>, e: Event)
    requires SortedByTime(s)
    ensures SortedByTime(InsertByTime(s, e))
    ensures |s| > 0 ==> InsertByTime(s, e)[0] == e || InsertByTime(s, e)[0] == s[0]
    decreases |s|
  {
    if |s| > 0 && !Before(e, s[0]) {
      InsertByTimeSorted(s[1..], e);
      var tail := InsertByTime(s[1..], e);
      forall j | 0 <= j < |tail|
        ensures Before(s[0], tail[j])
      {
        assert tail[j] in multiset(tail);
        if tail[j] != e {
          assert tail[j] in multiset(s[1..]);
          var k :| 0 <= k < |s[1..]| && s[1..][k] == tail[j];
          assert s[k + 1] == tail[j];
        }
      }
    }
  }

  /** Sorts events by `Before`, one insertion at a time. */
  function SortByTime(s: seq<Event>): (r: seq<Event>)
    ensures SortedByTime(r)
    ensures multiset(r) == multiset(s)
    decreases |s|
  {
    if |s| == 0 then []
    else
      var n := |s| - 1;
      assert s == s[..n] + [s[n]];
      InsertByTimeSorted(SortByTime(s[..n]), s[n]);
      InsertByTime(SortByTime(s[..n]), s[n])
  }

  /** The timestamp column of a list of events, in order. */
  function Times(es: seq<Event>): seq<int> {
    if |es| == 0 then [] else [es[0].ts] + Times(es[1..])
  }

  /** The timestamps of two lists laid end to end. */
  lemma {:induction false} TimesAppend(a: seq<Event>, b: seq<Event>)
    ensures Times(a + b) == Times(a) + Times(b)
    decreases |a|
  {
    if |a| == 0 {
      assert a + b == b;
    } else {
      assert (a + b)[1..] == a[1..] + b;
      TimesAppend(a[1..], b);
    }
  }

  /** Placing an event adds exactly its timestamp to the timestamps present. */
  lemma {:induction false} InsertByTimeTimes(s: seq<Event>, e: Event)
    ensures multiset(Times(InsertByTime(s, e))) == multiset(Times(s)) + multiset{e.ts}
    decreases |s|
  {
    if |s| > 0 && !Before(e, s[0]) {
      InsertByTimeTimes(s[1..], e);
      assert InsertByTime(s, e)[1..] == InsertByTime(s[1..], e);
    }
  }

  /** The timestamps of a non-empty list: those of all but the last, then the last one's. */
  lemma TimesSnoc(s: seq<Event>)
    requires |s| > 0
    ensures Times(s) == Times(s[..|s| - 1]) + [s[|s| - 1].ts]
  {
    var init, last := s[..|s| - 1], s[|s| - 1];
    assert Times([last]) == [last.ts] by {
      assert [last][1..] == [];
    }
    TimesAppend(init, [last]);
    assert init + [last] == s;
  }

  /** Sorting keeps the timestamps present, each as often as before. */
  lemma {:induction false} SortByTimeTimes(s: seq<Event>)
    ensures multiset(Times(SortByTime(s))) == multiset(Times(s))
    decreases |s|
  {
    if |s| > 0 {
      var n := |s| - 1;
      var prev := SortByTime(s[..n]);
      var last := s[n];
      assert SortByTime(s) == InsertByTime(prev, last);
      SortByTimeTimes(s[..n]);
      InsertByTimeTimes(prev, last);
      TimesSnoc(s);
      assert multiset(Times(s)) == multiset(Times(s[..n])) + multiset{last.ts};
    }
  }

  // ---------------------------------------------------------------------------
  // GROUP BY minute ... COUNT(*) ... ORDER BY minute ASC
  // ---------------------------------------------------------------------------

  /** The minute a timestamp falls in: floor division, as truncation to the minute. */
  function Minute(ts: int): int {
    ts / 60
  }

  datatype Bucket = Bucket(minute: int, count: nat)

  predicate StrictlyAscending(bs: seq<Bucket>) {
    forall i, j :: 0 <= i < j < |bs| ==> bs[i].minute < bs[j].minute
  }

  predicate AllPositive(bs: seq<Bucket>) {
    forall i :: 0 <= i < |bs| ==> bs[i].count >= 1
  }

  function Minutes(bs: seq<Bucket>): set<int> {
    set b | b in bs :: b.minute
  }

  /** The sum of the counts. */
  function Total(bs: seq<Bucket>): nat {
    if |bs| == 0 then 0 else bs[0].count + Total(bs[1..])
  }

  /** The count recorded for minute `m`: the sum of the buckets labelled `m`. */
  function CountAt(bs: seq<Bucket>, m: int): nat {
    if |bs| == 0 then 0
    else (if bs[0].minute == m then bs[0].count else 0) + CountAt(bs[1..], m)
  }

  /** Reference count: how many of `rows` fall in minute `m`. */
  function RowsInMinute(rows: seq<Event>, m: int): nat {
    if |rows| == 0 then 0
    else (if Minute(rows[0].ts) == m then 1 else 0) + RowsInMinute(rows[1..], m)
  }

  /** Counts one more row of minute `m` into an ordered bucket list. */
  function AddToBucket(bs: seq<Bucket>, m: int): (r: seq<Bucket>)
    ensures |r| > 0
  {
    if |bs| == 0 then [Bucket(m, 1)]
    else if m < bs[0].minute then [Bucket(m, 1)] + bs
    else if m == bs[0].minute then [Bucket(m, bs[0].count + 1)] + bs[1..]
    else [bs[0]] + AddToBucket(bs[1..], m)
  }

  /** Adding a row keeps the buckets in strictly ascending minute order. */
  lemma {:induction false} AddToBucketOrdered(bs: seq<Bucket>, m: int)
    requires StrictlyAscending(bs)
    ensures StrictlyAscending(AddToBucket(bs, m))
    ensures AddToBucket(bs, m)[0].minute == (if |bs| == 0 || m < bs[0].minute then m else bs[0].minute)
    decreases |bs|
  {
    if |bs| > 0 && m > bs[0].minute {
      AddToBucketOrdered(bs[1..], m);
      var tail := AddToBucket(bs[1..], m);
      assert forall j :: 0 <= j < |tail| ==> bs[0].minute < tail[j].minute by {
        assert tail[0].minute > bs[0].minute;
      }
    }
  }

  /** Adding a row keeps every count positive and raises the total by one. */
  lemma {:induction false} AddToBucketTotal(bs: seq<Bucket>, m: int)
    ensures AllPositive(bs) ==> AllPositive(AddToBucket(bs, m))
    ensures Total(AddToBucket(bs, m)) == Total(bs) + 1
    decreases |bs|
  {
    if |bs| > 0 && m > bs[0].minute {
      AddToBucketTotal(bs[1..], m);
      assert AddToBucket(bs, m)[1..] == AddToBucket(bs[1..], m);
    } else if |bs| > 0 && m == bs[0].minute {
      assert AddToBucket(bs, m)[1..] == bs[1..];
    } else if |bs| > 0 {
      assert AddToBucket(bs, m)[1..] == bs;
    }
  }

  /** Adding a row of minute `m` raises the count at `m` by one and changes no other count. */
  lemma {:induction false} AddToBucketCounts(bs: seq<Bucket>, m: int)
    ensures forall k :: CountAt(AddToBucket(bs, m), k) == CountAt(bs, k) + (if k == m then 1 else 0)
    decreases |bs|
  {
    if |bs| > 0 && m > bs[0].minute {
      AddToBucketCounts(bs[1..], m);
      assert AddToBucket(bs, m)[1..] == AddToBucket(bs[1..], m);
    } else if |bs| > 0 && m == bs[0].minute {
      assert AddToBucket(bs, m)[1..] == bs[1..];
    } else if |bs| > 0 {
      assert AddToBucket(bs, m)[1..] == bs;
    }
  }

  /** Adding a row of minute `m` adds exactly `m` to the set of minutes. */
  lemma {:induction false} AddToBucketMinutes(bs: seq<Bucket>, m: int)
    ensures Minutes(AddToBucket(bs, m)) == Minutes(bs) + {m}
    decreases |bs|
  {
    if |bs| > 0 {
      assert bs == [bs[0]] + bs[1..];
      if m > bs[0].minute {
        AddToBucketMinutes(bs[1..], m);
        assert AddToBucket(bs, m) == [bs[0]] + AddToBucket(bs[1..], m);
        assert Minutes(AddToBucket(bs, m)) == {bs[0].minute} + Minutes(AddToBucket(bs[1..], m));
        assert Minutes(bs) == {bs[0].minute} + Minutes(bs[1..]);
      }
    }
  }

  /** GROUP BY minute over `rows`, as an ordered bucket list, one row at a time. */
  function GroupByMinute(rows: seq<Event>): seq<Bucket>
    decreases |rows|
  {
    if |rows| == 0 then []
    else AddToBucket(GroupByMinute(rows[..|rows| - 1]), Minute(rows[|rows| - 1].ts))
  }

  /** The groups come out strictly ascending by minute. */
  lemma {:induction false} GroupByMinuteOrdered(rows: seq<Event>)
    ensures StrictlyAscending(GroupByMinute(rows))
    decreases |rows|
  {
    if |rows| > 0 {
      var n := |rows| - 1;
      GroupByMinuteOrdered(rows[..n]);
      AddToBucketOrdered(GroupByMinute(rows[..n]), Minute(rows[n].ts));
    }
  }

  /** Every group holds at least one row, and the counts add up to the number of rows. */
  lemma {:induction false} GroupByMinuteTotal(rows: seq<Event>)
    ensures AllPositive(GroupByMinute(rows))
    ensures Total(GroupByMinute(rows)) == |rows|
    decreases |rows|
  {
    if |rows| > 0 {
      var n := |rows| - 1;
      GroupByMinuteTotal(rows[..n]);
      AddToBucketTotal(GroupByMinute(rows[..n]), Minute(rows[n].ts));
    }
  }

  /**
    COUNT(*) per group: the count recorded for every minute is the number of
    rows in that minute, and the groups are exactly the minutes that occur.
  */
  lemma {:induction false} GroupByMinuteCounts(rows: seq<Event>)
    ensures forall k :: CountAt(GroupByMinute(rows), k) == RowsInMinute(rows, k)
    ensures Minutes(GroupByMinute(rows)) == set e | e in rows :: Minute(e.ts)
    decreases |rows|
  {
    if |rows| > 0 {
      var n := |rows| - 1;
      var m := Minute(rows[n].ts);
      GroupByMinuteCounts(rows[..n]);
      RowsInMinuteSnoc(rows[..n], rows[n]);
      AddToBucketCounts(GroupByMinute(rows[..n]), m);
      AddToBucketMinutes(GroupByMinute(rows[..n]), m);
      assert rows == rows[..n] + [rows[n]];
      assert (set e | e in rows :: Minute(e.ts)) == (set e | e in rows[..n] :: Minute(e.ts)) + {m};
    }
  }

  lemma {:induction false} RowsInMinuteSnoc(rows: seq<Event>, e: Event)
    ensures forall k :: RowsInMinute(rows + [e], k) == RowsInMinute(rows, k) + (if Minute(e.ts) == k then 1 else 0)
    decreases |rows|
  {
    if |rows| == 0 {
      assert (rows + [e])[1..] == [];
    } else {
      assert (rows + [e])[1..] == rows[1..] + [e];
      RowsInMinuteSnoc(rows[1..], e);
    }
  }

  /** In an ordered bucket list the count recorded for a bucket's minute is that bucket's count. */
  lemma {:induction false} CountAtOwnBucket(bs: seq<Bucket>, i: nat)
    requires StrictlyAscending(bs) && i < |bs|
    ensures CountAt(bs, bs[i].minute) == bs[i].count
    decreases |bs|
  {
    if i == 0 {
      CountAtAbsent(bs[1..], bs[0].minute);
    } else {
      CountAtOwnBucket(bs[1..], i - 1);
    }
  }

  lemma {:induction false} CountAtAbsent(bs: seq<Bucket>, m: int)
    requires forall i :: 0 <= i < |bs| ==> bs[i].minute > m
    ensures CountAt(bs, m) == 0
    decreases |bs|
  {
    if |bs| > 0 {
      CountAtAbsent(bs[1..], m);
    }
  }

  // ---------------------------------------------------------------------------
  // SELECT DISTINCT
  // ---------------------------------------------------------------------------

  predicate NoDuplicates(s: seq<string>) {
    forall i, j :: 0 <= i < j < |s| ==> s[i] != s[j]
  }

  /** Keeps the first occurrence of every value. */
  function Distinct(s: seq<string>): (r: seq<string>)
    ensures NoDuplicates(r)
    ensures forall x :: x in r <==> x in s
    ensures |r| <= |s|
    decreases |s|
  {
    if |s| == 0 then []
    else
      var n := |s| - 1;
      var prefix := Distinct(s[..n]);
      assert forall x :: x in s <==> x in s[..n] || x == s[n] by {
        assert s == s[..n] + [s[n]];
      }
      if s[n] in prefix then prefix else prefix + [s[n]]
  }

  function Ips(log: seq<Event>): (r: seq<string>)
    ensures forall ip :: ip in r <==> exists e :: e in log && e.ip == ip
  {
    if |log| == 0 then [] else [log[0].ip] + Ips(log[1..])
  }

  function Protocols(log: seq<Event>): (r: seq<string>)
    ensures forall p :: p in r <==> exists e :: e in log && e.protocol == p
  {
    if |log| == 0 then [] else [log[0].protocol] + Protocols(log[1..])
  }

  /** SELECT DISTINCT ip FROM events */
  function DistinctIps(log: seq<Event>): (r: seq<string>)
    ensures NoDuplicates(r)
    ensures forall ip :: ip in r <==> exists e :: e in log && e.ip == ip
  {
    Distinct(Ips(log))
  }

  /** SELECT DISTINCT protocol FROM events WHERE ip = ? */
  function DistinctProtocols(log: seq<Event>, ip: string): (r: seq<string>)
    ensures NoDuplicates(r)
    ensures forall p :: p in r <==> exists e :: e in log && e.ip == ip && e.protocol == p
  {
    var rows := Select(log, ip, "");
    assert forall e :: e in rows <==> e in log && e.ip == ip;
    Distinct(Protocols(rows))
  }

  // ---------------------------------------------------------------------------
  // The three row-producing queries of the handlers
  // ---------------------------------------------------------------------------

  /**
    SELECT id, ip, protocol, timestamp ... WHERE ... ORDER BY timestamp ASC:
    every matching event exactly as often as it is stored, and nothing else,
    ordered by time.
  */
  function Events(log: seq<Event>, ip: string, protocol: string): (r: seq<Event>)
    ensures SortedByTime(r)
    ensures forall x :: multiset(r)[x] == if Matches(x, ip, protocol) then multiset(log)[x] else 0
  {
    SortByTime(Select(log, ip, protocol))
  }

  /** The events query returns as many rows as match, each a stored matching event. */
  lemma EventsAreMatches(log: seq<Event>, ip: string, protocol: string)
    ensures |Events(log, ip, protocol)| == |Select(log, ip, protocol)|
    ensures forall i :: 0 <= i < |Events(log, ip, protocol)| ==>
                          Events(log, ip, protocol)[i] in log && Matches(Events(log, ip, protocol)[i], ip, protocol)
  {
    var rows := Events(log, ip, protocol);
    var sel := Select(log, ip, protocol);
    assert multiset(rows) == multiset(sel);
    assert |rows| == |multiset(rows)| == |multiset(sel)| == |sel|;
    forall i | 0 <= i < |rows|
      ensures rows[i] in log && Matches(rows[i], ip, protocol)
    {
      assert rows[i] in multiset(rows);
    }
  }

  /** SELECT minute, COUNT(*) ... GROUP BY minute ORDER BY minute ASC */
  function SummaryRows(log: seq<Event>, ip: string, protocol: string): seq<Bucket> {
    GroupByMinute(Select(log, ip, protocol))
  }
}

=== FILE: store.dfy ===
/**
  The `events` table of `main.go` as an append-only log. Each stored event
  carries the AUTO_INCREMENT id the table assigns: one more than the largest
  id present, so ids grow with insertion order.
*/
module Store {
  import opened Capture

  datatype Event = Event(id: nat, ip: string, protocol: string, ts: int)

  /** Ids strictly increase along the log (insertion order). */
  predicate IdsAscending(log: seq<Event>) {
    forall i, j :: 0 <= i < j < |log| ==> log[i].id < log[j].id
  }

  /** The largest id in the log, 0 for an empty table. */
  function MaxId(log: seq<Event>): (m: nat)
    ensures forall i :: 0 <= i < |log| ==> log[i].id <= m
  {
    if |log| == 0 then 0
    else
      var rest := MaxId(log[1..]);
      assert forall i :: 1 <= i < |log| ==> log[i] == log[1..][i - 1];
      if log[0].id < rest then rest else log[0].id
  }

  /** The id the table gives the next inserted row. */
  function NextId(log: seq<Event>): nat {
    MaxId(log) + 1
  }

  /** One successful `INSERT`: the row is stored under a fresh id. */
  function Insert(log: seq<Event>, row: Row): (r: seq<Event>)
    ensures |r| == |log| + 1
  {
    log + [Event(NextId(log), row.ip, row.protocol, row.ts)]
  }

  /**
    An insert leaves the earlier events untouched and stores the row under an
    id above every existing one, so ids stay ascending.
  */
  lemma InsertFreshId(log: seq<Event>, row: Row)
    ensures Insert(log, row)[..|log|] == log
    ensures RowOf(Insert(log, row)[|log|]) == row
    ensures forall e :: e in log ==> e.id < Insert(log, row)[|log|].id
    ensures IdsAscending(log) ==> IdsAscending(Insert(log, row))
  {
  }

  /** Several inserts, in order; defined on the last row, as the ingestion loop adds them. */
  function InsertAll(log: seq<Event>, rows: seq<Row>): seq<Event>
    decreases |rows|
  {
    if |rows| == 0 then log
    else Insert(InsertAll(log, rows[..|rows| - 1]), rows[|rows| - 1])
  }

  /** The stored columns of an event, without its id. */
  function RowOf(e: Event): Row {
    Row(e.ip, e.protocol, e.ts)
  }

  /** The stored columns of every event, in log order. */
  function Rows(log: seq<Event>): seq<Row> {
    seq(|log|, i requires 0 <= i < |log| => RowOf(log[i]))
  }

  /** The stored columns of two logs laid end to end. */
  lemma RowsAppend(a: seq<Event>, b: seq<Event>)
    ensures Rows(a + b) == Rows(a) + Rows(b)
  {
    assert forall i :: 0 <= i < |a + b| ==> Rows(a + b)[i] == (Rows(a) + Rows(b))[i];
  }

  /** One insert adds exactly its row to the stored columns. */
  lemma RowsOfInsert(log: seq<Event>, row: Row)
    ensures Rows(Insert(log, row)) == Rows(log) + [row]
  {
    var e := Event(NextId(log), row.ip, row.protocol, row.ts);
    assert Insert(log, row) == log + [e];
    RowsAppend(log, [e]);
    assert Rows([e]) == [row];
  }

  /** Inserting rows appends exactly the given rows, in order, after the old log. */
  lemma {:induction false} InsertAllAppends(log: seq<Event>, rows: seq<Row>)
    ensures |InsertAll(log, rows)| == |log| + |rows|
    ensures Rows(InsertAll(log, rows)) == Rows(log) + rows
    decreases |rows|
  {
    if |rows| > 0 {
      var n := |rows| - 1;
      InsertAllAppends(log, rows[..n]);
      RowsOfInsert(InsertAll(log, rows[..n]), rows[n]);
      assert rows == rows[..n] + [rows[n]];
    }
  }

  /** Inserting rows leaves every earlier event untouched. */
  lemma {:induction false} InsertAllKeepsPrefix(log: seq<Event>, rows: seq<Row>)
    ensures |log| <= |InsertAll(log, rows)|
    ensures InsertAll(log, rows)[..|log|] == log
    decreases |rows|
  {
    if |rows| > 0 {
      var n := |rows| - 1;
      var prev := InsertAll(log, rows[..n]);
      InsertAllKeepsPrefix(log, rows[..n]);
      var x := Event(NextId(prev), rows[n].ip, rows[n].protocol, rows[n].ts);
      assert Insert(prev, rows[n]) == prev + [x];
      assert (prev + [x])[..|log|] == prev[..|log|];
    }
  }

  /** Inserting rows keeps ids ascending. */
  lemma {:induction false} InsertAllKeepsIdsAscending(log: seq<Event>, rows: seq<Row>)
    requires IdsAscending(log)
    ensures IdsAscending(InsertAll(log, rows))
    decreases |rows|
  {
    if |rows| > 0 {
      InsertAllKeepsIdsAscending(log, rows[..|rows| - 1]);
      InsertFreshId(InsertAll(log, rows[..|rows| - 1]), rows[|rows| - 1]);
    }
  }
}

=== FILE: wrappers.dfy ===
/** Small failure-carrying datatypes shared by the other modules. */
module Wrappers {

  /** A value that may be absent (a nil layer, a missing query parameter). */
  datatype Option<+T> = None | Some(value: T)

  /** The outcome of an operation that can fail with a logged message. */
  datatype Result<+T> = Success(value: T) | Failure(error: string)
}
